=== FILE: README.md ===
# A·0 data logger — Dafny model

A model of the A·0 data logger, which records real-time telemetry from an interactive installation. The logger receives OSC messages on three addresses: audience metrics, system events and biometric engagement data. Each handler checks that the message has enough arguments, decodes the first five positionally, computes an engagement score for biometric messages and appends one row to its own PostgreSQL table. Two session functions insert the `sessions` row at start-up and fill in its duration and notes at shutdown.

The database is an abstract state with one sequence of rows per table (`Tables.Db`). Each write is one connect-and-execute. The caller passes in what the store does with it:
- `Available`: the write commits.
- `Unreachable`: the connection fails, and the error escapes the function, because the connect call sits outside the `try` block.
- `Rejects`: the statement fails and is rolled back.

When a write does not commit, the state is left exactly as it was. Message arguments are an untyped variant (`OscArgs.OscArg`). The interaction flag is Python truthiness of the fifth argument. The score arithmetic treats strings, blobs and `None` as a `TypeError`, which the model raises before any connection is made, as the source does. The score is computed over exact reals.

Modules: `OscArgs` (arguments and coercions), `Tables` (rows and database state), `EngagementScore`, `Sessions`, `Handlers` (decoding and the three handlers), `Dispatcher` (routing table, dispatch, and a stream of messages).

Facts about the code that the model makes explicit:
- The interaction flag is `bool(args[4])`. The occupancy count plays no part in it.
- Closing a session whose id matches no row still commits and ends normally. The UPDATE changes nothing and no error is raised.
- Nothing marks a session as closed. Closing it again overwrites the duration and notes.
- The score is capped only from above. A negative GSR reading gives a negative GSR term, so the score can drop below 0 (gsr = −10, bpm = 70 gives −60).

## Model

| member | source | states |
|---|---|---|
| OscArgs.Truthy | data-layer/pipelines/data_logger.py:103 | Python's `bool(x)`. A number is true exactly when its value is nonzero. A string or blob is true exactly when it is non-empty. `None` is false. |
| OscArgs.AsNumber | data-layer/pipelines/data_logger.py:163-164 | The arithmetic `gsr / 10.0` and `bpm - 70` raises a type error exactly for strings, blobs and `None`. Integers and floats keep their value, and booleans count as 0 or 1. |
| EngagementScore.GsrComponent | data-layer/pipelines/data_logger.py:163 | The GSR term never exceeds 60. It is non-negative for non-negative GSR, exactly 60 from a reading of 10 upward, and negative for negative GSR. |
| EngagementScore.BpmComponent | data-layer/pipelines/data_logger.py:164 | The heart-rate term always lies in [0, 40]. It is 0 exactly at 70 bpm, and 40 exactly when the deviation from 70 is at least 50. |
| EngagementScore.Score | data-layer/pipelines/data_logger.py:163-165 | The score never exceeds 100, and lies in [0, 100] whenever GSR is non-negative. |
| EngagementScore.ScoreIsPiecewiseLinear | data-layer/pipelines/data_logger.py:163-165 | The score equals an independent piecewise-linear rule: 6 points per unit of GSR up to 60, plus 0.8 points per beat of deviation from 70 up to 40. |
| EngagementScore.ScoreReferencePoints | data-layer/pipelines/data_logger.py:163-165 | The reference points: gsr=10, bpm=70 gives 60; gsr=0, bpm=70 gives 0; gsr=20, bpm=200 gives 100. |
| EngagementScore.ScoreSymmetricInDeviation | data-layer/pipelines/data_logger.py:164 | bpm = 70+d and bpm = 70−d give the same score. |
| EngagementScore.ScoreMonotone | data-layer/pipelines/data_logger.py:163-164 | More GSR, or a larger heart-rate deviation, never lowers the score. |
| EngagementScore.NegativeGsrCanGiveNegativeScore | data-layer/pipelines/data_logger.py:163-165 | Negative GSR is not clamped from below. It always leaves the score under the heart-rate term alone. gsr=−10, bpm=70 gives −60, but gsr=−1, bpm=120 gives 34, so the heart-rate term can outweigh it. |
| Sessions.CreateSession | data-layer/pipelines/data_logger.py:50-71 | Succeeds exactly when the store commits. It returns the generated id and appends one `sessions` row with that id, project, venue and scene version, with duration and notes still unset. The metric tables are untouched. A connection failure or a failed insert raises and changes nothing. |
| Sessions.CloseRows | data-layer/pipelines/data_logger.py:79-83 | The UPDATE keeps the number of rows. It sets duration and notes on every row whose id matches and leaves every other row as it was. |
| Sessions.CloseSession | data-layer/pipelines/data_logger.py:74-90 | On commit, only rows with a matching `session_id` get the new duration and notes. With no matching row nothing changes. A failed statement is rolled back and close still ends normally. A connection failure raises. Metric tables are never touched. |
| Sessions.CreateThenClose | data-layer/pipelines/data_logger.py:50-90 | Creating a session under a fresh id and then closing it leaves exactly one row with that id. The row keeps its creation fields and carries the close's duration and notes. Earlier rows and all metric tables are unchanged. |
| Sessions.CloseTwiceLastWins | data-layer/pipelines/data_logger.py:79-83 | Closing twice equals closing once with the second duration and notes. |
| Sessions.SessionOpsKeepIntegrity | data-layer/pipelines/data_logger.py:59-83 | Creating or closing a session keeps every metric row referencing an existing session. |
| Handlers.Commit | data-layer/pipelines/data_logger.py:105-119 | A handler's write commits exactly when the store is available. It is rolled back and swallowed exactly when the statement fails, and it raises out of the handler exactly when no connection can be made. On either failure the database is unchanged. |
| Handlers.DecodeAudienceMetric | data-layer/pipelines/data_logger.py:99-103 | Decoding succeeds exactly when at least five arguments arrived. |
| Handlers.DecodeSystemEvent | data-layer/pipelines/data_logger.py:127-131 | Decoding succeeds exactly when at least five arguments arrived. |
| Handlers.DecodeEngagementData | data-layer/pipelines/data_logger.py:155-159 | Decoding succeeds exactly when at least five arguments arrived. |
| Handlers.DecodeEncodeRoundTrip | data-layer/pipelines/data_logger.py:99-159 | Decoding the argument list a sender builds from a record gives back that record, whatever extra arguments follow. This holds for all three message kinds. |
| Handlers.EncodeDecodeRoundTrip | data-layer/pipelines/data_logger.py:99-159 | A decoded record re-encodes to exactly the first five arguments in order, with the audience interaction argument reduced to its truthiness. Arguments beyond the fifth do not affect decoding. |
| Handlers.InteractionIsFifthArgument | data-layer/pipelines/data_logger.py:103 | The interaction flag is `bool(args[4])` for every argument kind. For an integer fifth argument it is true exactly when the integer is nonzero. A float 0.5, the string "x" and `True` also give true. Occupancy plays no part: occupancy 0 with flag 1 gives true, and occupancy 5 with flag 0 gives false. |
| Handlers.HandleAudienceMetric | data-layer/pipelines/data_logger.py:94-119 | With fewer than five arguments the message is dropped and nothing is written. A row is written exactly when at least five arguments arrived and the store commits. That is one appended `audience_metrics` row holding args[0..3], the server timestamp and bool(args[4]). All other tables are unchanged. With five arguments, a failed insert is rolled back and a failed connection raises, and either leaves the database unchanged. |
| Handlers.HandleSystemEvent | data-layer/pipelines/data_logger.py:122-147 | With fewer than five arguments the message is dropped. A row is written exactly when at least five arguments arrived and the store commits. That is one appended `system_events` row holding args[0..4] in order. All other tables are unchanged. With five arguments, a failed insert is rolled back and a failed connection raises, and either leaves the database unchanged. |
| Handlers.HandleEngagementData | data-layer/pipelines/data_logger.py:150-181 | With fewer than five arguments the message is dropped. A non-numeric GSR or BPM raises a type error before any write. Otherwise, when the store commits, one `emotional_engagement` row is appended. It holds args[0..4], the server timestamp and the score of the GSR and BPM readings, which lies in [0, 100] for non-negative GSR. All other tables are unchanged. With five numeric-reading arguments, a failed insert is rolled back and a failed connection raises, and either leaves the database unchanged. |
| Dispatcher.RoutesInvertAddressOf | data-layer/pipelines/data_logger.py:190-192 | The routing table has exactly three addresses. Each handler is reachable under its own address, and every routed address leads to the handler registered under it. |
| Dispatcher.Dispatch | data-layer/pipelines/data_logger.py:187-192 | An unrouted address is ignored. A routed message writes exactly when it is accepted. Acceptance is defined independently of the handlers: a routed address, at least five arguments, numeric readings for engagement data, and a store that commits. An accepted message adds exactly one row, to the table of the handler registered for its address. `/audience/metric` appends (args[0], timestamp, args[1..3], bool(args[4])) to `audience_metrics`. `/system/event` appends args[0..4] to `system_events`. `/engagement/biometric` appends the row with the score to `emotional_engagement`. The other metric tables are unchanged. Any other message changes nothing. A routed message with five arguments ends in a raise when the connection fails, and in a rollback or a type error when the statement fails. Sessions are never touched. |
| Dispatcher.IngestCountsRows | data-layer/pipelines/data_logger.py:94-192 | Over any stream of messages, the metric tables grow by exactly the number of accepted messages, and the sessions table is unchanged. |
| Dispatcher.AllAcceptedWritesAll | data-layer/pipelines/data_logger.py:94-192 | N accepted messages add exactly N rows across the three metric tables. When every message names the active session first and the tables were scoped to it, all rows stay scoped to that session. |
| Dispatcher.FailureIsContained | data-layer/pipelines/data_logger.py:38-181 | A message that was not accepted leaves no trace. The rest of the stream has exactly the effect it would have had without it. Such a message may have been dropped for arity, rolled back (lines 115-119), failed to connect (lines 44-46, 105) or hit a type error in the score (lines 163-164). |
| Dispatcher.Ingest | data-layer/pipelines/data_logger.py:187-200 | Handles a stream in order. The count of rows written equals the number of accepted messages, and the result agrees with the message-by-message fold. |
| Dispatcher.IngestKeepsSessionScope | data-layer/pipelines/data_logger.py:103-112 | When every message names the active session first, every metric row stays scoped to that session. |
| Dispatcher.IngestKeepsIntegrity | data-layer/pipelines/data_logger.py:108-112 | Suppose the store commits an accepted message's row only when its session id names an existing session (a foreign key to `sessions`). Then ingestion keeps every metric row referencing an existing session. |

## Left out

- Connection handling with psycopg2 (connect, commit, rollback, close) and the environment-driven `DB_CONFIG`. These are foreign I/O. Each write is a store verdict passed in by the caller.
- The table schema. It is not part of this model. Column types and the foreign keys of the metric tables are not checked by the model. `Dispatcher.IngestKeepsIntegrity` takes the foreign key as a hypothesis on the store.
- OSC address patterns. The OSC library's dispatcher treats an incoming address as a pattern and matches it against every registered address. So `/*/*` reaches all three handlers and can write three rows, and `/audience/metri?` reaches the audience handler. The model looks addresses up literally. It assumes every message carries one of the three literal addresses or an address that matches none of them. `Dispatcher.Dispatch` ("an unrouted address is ignored", "one row per accepted message") and `Dispatcher.IngestCountsRows` hold under that assumption.
- The OSC `Dispatcher`, the threading UDP server and its daemon thread. This is network and concurrency plumbing. Only the address-to-handler map is kept. A stream of messages is modelled as sequential, one message after another.
- Logging, including `severity.upper()` in the system-event log line. That call runs after the commit, so a non-string severity raises only after the row is stored. The model's database effect is the same, and its outcome is `Written`.
- The busy-wait main loop and the shutdown on KeyboardInterrupt. The session they create and close is covered by `Sessions.CreateThenClose`.
- `uuid.uuid4()` and `datetime.now()`. The fresh id and the timestamp are parameters. Ids are not checked for uniqueness, so `Sessions.CreateThenClose` assumes the id is fresh.
- EngagementScore.Score: stated without Python's `round(…, 2)`. The stored score is the exact real sum. The reference points are exact before rounding.
- Dispatcher.FailureIsContained: a connection failure or a type error raises out of the handler. The model assumes the OSC server catches that exception and goes on with the next message, so a raise has the same effect as a drop. The server's error handling is not part of this model.
- OSC arrays and MIDI tuples are not among the modelled argument kinds. For those, `bool(args[4])` would mean "non-empty" and the score arithmetic would raise a type error.
- Floating point: OSC floats are exact reals, so there is no NaN, infinity or float32 precision. Integer overflow in `int / 10.0` cannot happen for OSC's 32- and 64-bit integers.

=== FILE: dispatcher.dfy ===
/**
 The static routing table that binds OSC addresses to handlers, dispatch of
 one message through it, and the effect of a stream of messages on the
 database.
 */
module Dispatcher {
  import opened OscArgs
  import opened Tables
  import opened Handlers
  import opened EngagementScore

  datatype Handler = AudienceMetricHandler | SystemEventHandler | EngagementDataHandler

  /** The address each handler is registered under. */
  function AddressOf(h: Handler): string
  {
    match h
    case AudienceMetricHandler => "/audience/metric"
    case SystemEventHandler => "/system/event"
    case EngagementDataHandler => "/engagement/biometric"
  }

  /** The dispatcher's address map, fixed at start-up. */
  const Routes: map<string, Handler> := map[
    "/audience/metric" := AudienceMetricHandler,
    "/system/event" := SystemEventHandler,
    "/engagement/biometric" := EngagementDataHandler]

  /** The routing table is exactly the inverse of `AddressOf`: every handler
      is reachable under its own address and under no other, and nothing
      else is routed. */
  lemma RoutesInvertAddressOf(h: Handler, address: string)
    ensures AddressOf(h) in Routes && Routes[AddressOf(h)] == h
    ensures address in Routes ==> AddressOf(Routes[address]) == address
    ensures |Routes| == 3
  {
    assert Routes.Keys == {"/audience/metric", "/system/event", "/engagement/biometric"};
  }

  function Invoke(h: Handler, db: Db, args: seq<OscArg>, now: Timestamp, store: StoreStatus): Handled
  {
    match h
    case AudienceMetricHandler => HandleAudienceMetric(db, args, now, store)
    case SystemEventHandler => HandleSystemEvent(db, args, store)
    case EngagementDataHandler => HandleEngagementData(db, args, now, store)
  }

  /** One received message: its address and arguments, the server clock read
      when its handler builds the row, and what the store does with its
      write. */
  datatype Message = Message(address: string, args: seq<OscArg>, handledAt: Timestamp, store: StoreStatus)

  /** How dispatch of one message ends: no handler matched the address (the
      message is ignored), or the handler ran with the given outcome. */
  datatype Dispatched = Unmatched | Ran(outcome: Outcome)

  datatype Delivery = Delivery(db: Db, result: Dispatched)

  /** A message whose handling writes a row, stated without reference to any
      handler: a routed address, at least five arguments, numeric GSR and BPM
      for an engagement message, and a store that commits. */
  predicate Accepted(m: Message)
  {
    && m.address in Routes
    && |m.args| >= RequiredArgs
    && m.store == Available
    && (m.address == AddressOf(EngagementDataHandler) ==>
          AsNumber(m.args[2]).Some? && AsNumber(m.args[3]).Some?)
  }

  /** Routes one message to its handler. An accepted message adds exactly one
      metric row; any other message leaves the database unchanged; the
      sessions table is never touched. */
  function Dispatch(db: Db, m: Message): (d: Delivery)
    ensures d.result == Ran(Written) <==> Accepted(m)
    ensures d.result == Unmatched <==> m.address !in Routes
    ensures d.db.sessions == db.sessions
    ensures Accepted(m) ==> MetricRowCount(d.db) == MetricRowCount(db) + 1
    ensures !Accepted(m) ==> d.db == db
    ensures m.address in Routes && |m.args| < RequiredArgs ==> d == Delivery(db, Ran(Dropped))
    ensures m.address in Routes && |m.args| >= RequiredArgs && m.store == Unreachable ==>
      d.result in {Ran(ConnectRaised), Ran(TypeRaised)}
    ensures m.address in Routes && |m.args| >= RequiredArgs && m.store == Rejects ==>
      d.result in {Ran(RolledBack), Ran(TypeRaised)}
    ensures Accepted(m) && m.address == AddressOf(AudienceMetricHandler) ==>
      && AppendedOne(db.audienceMetrics, d.db.audienceMetrics,
                     AudienceRow(m.args[0], m.handledAt, m.args[1], m.args[2], m.args[3], Truthy(m.args[4])))
      && d.db.systemEvents == db.systemEvents
      && d.db.emotionalEngagement == db.emotionalEngagement
    ensures Accepted(m) && m.address == AddressOf(SystemEventHandler) ==>
      && AppendedOne(db.systemEvents, d.db.systemEvents,
                     EventRow(m.args[0], m.args[1], m.args[2], m.args[3], m.args[4]))
      && d.db.audienceMetrics == db.audienceMetrics
      && d.db.emotionalEngagement == db.emotionalEngagement
    ensures Accepted(m) && m.address == AddressOf(EngagementDataHandler) ==>
      && AppendedOne(db.emotionalEngagement, d.db.emotionalEngagement,
                     EngagementRow(m.args[0], m.args[1], m.handledAt, m.args[2], m.args[3],
                                   Score(AsNumber(m.args[2]).value, AsNumber(m.args[3]).value), m.args[4]))
      && d.db.audienceMetrics == db.audienceMetrics
      && d.db.systemEvents == db.systemEvents
  {
    if m.address in Routes then
      var h := Invoke(Routes[m.address], db, m.args, m.handledAt, m.store);
      Delivery(h.db, Ran(h.outcome))
    else Delivery(db, Unmatched)
  }

  /** The database after the messages are handled one after another. */
  function IngestAll(db: Db, msgs: seq<Message>): Db
    decreases |msgs|
  {
    if |msgs| == 0 then db else IngestAll(Dispatch(db, msgs[0]).db, msgs[1..])
  }

  function CountAccepted(msgs: seq<Message>): nat
    decreases |msgs|
  {
    if |msgs| == 0 then 0 else (if Accepted(msgs[0]) then 1 else 0) + CountAccepted(msgs[1..])
  }

  /** Every message is handled independently: the metric tables grow by
      exactly the number of accepted messages, whatever failed in between,
      and the sessions table is unchanged. */
  lemma {:induction false} IngestCountsRows(db: Db, msgs: seq<Message>)
    ensures IngestAll(db, msgs).sessions == db.sessions
    ensures MetricRowCount(IngestAll(db, msgs)) == MetricRowCount(db) + CountAccepted(msgs)
    decreases |msgs|
  {
    if |msgs| > 0 {
      IngestCountsRows(Dispatch(db, msgs[0]).db, msgs[1..]);
    }
  }

  /** A stream of N accepted messages writes N metric rows; when each of them
      names the active session first, all of those rows are scoped to it. */
  lemma {:induction false} AllAcceptedWritesAll(db: Db, msgs: seq<Message>, sessionId: string)
    requires forall i :: 0 <= i < |msgs| ==> Accepted(msgs[i])
    ensures CountAccepted(msgs) == |msgs|
    ensures MetricRowCount(IngestAll(db, msgs)) == MetricRowCount(db) + |msgs|
    ensures ScopedTo(db, sessionId) && (forall i :: 0 <= i < |msgs| && |msgs[i].args| > 0 ==> msgs[i].args[0] == StrArg(sessionId))
            ==> ScopedTo(IngestAll(db, msgs), sessionId)
    decreases |msgs|
  {
    if |msgs| > 0 {
      AllAcceptedWritesAll(Dispatch(db, msgs[0]).db, msgs[1..], sessionId);
    }
    IngestCountsRows(db, msgs);
    if ScopedTo(db, sessionId) && (forall i :: 0 <= i < |msgs| && |msgs[i].args| > 0 ==> msgs[i].args[0] == StrArg(sessionId)) {
      IngestKeepsSessionScope(db, msgs, sessionId);
    }
  }

  /** A message that was not accepted leaves no trace: the rest of the
      stream has exactly the effect it would have had without it. */
  lemma FailureIsContained(db: Db, failed: Message, rest: seq<Message>)
    requires !Accepted(failed)
    ensures IngestAll(db, [failed] + rest) == IngestAll(db, rest)
  {
  }

  /** Handles the messages in order, counting the rows written. */
  method Ingest(db: Db, msgs: seq<Message>) returns (db': Db, written: nat)
    ensures db' == IngestAll(db, msgs)
    ensures written == CountAccepted(msgs)
    ensures MetricRowCount(db') == MetricRowCount(db) + written
    ensures db'.sessions == db.sessions
  {
    db' := db;
    written := 0;
    var i := 0;
    while i < |msgs|
      invariant 0 <= i <= |msgs|
      invariant IngestAll(db', msgs[i..]) == IngestAll(db, msgs)
      invariant written + CountAccepted(msgs[i..]) == CountAccepted(msgs)
      invariant MetricRowCount(db') == MetricRowCount(db) + written
      invariant db'.sessions == db.sessions
    {
      var d := Dispatch(db', msgs[i]);
      if d.result == Ran(Written) {
        written := written + 1;
      }
      assert msgs[i..][1..] == msgs[i + 1..];
      db' := d.db;
      i := i + 1;
    }
  }

  /** When every message carries the active session's id first, every row
      written carries it, so the whole metric data stays scoped to it. */
  lemma {:induction false} IngestKeepsSessionScope(db: Db, msgs: seq<Message>, sessionId: string)
    requires ScopedTo(db, sessionId)
    requires forall i :: 0 <= i < |msgs| && |msgs[i].args| > 0 ==> msgs[i].args[0] == StrArg(sessionId)
    ensures ScopedTo(IngestAll(db, msgs), sessionId)
    decreases |msgs|
  {
    if |msgs| > 0 {
      var db1 := Dispatch(db, msgs[0]).db;
      assert ScopedTo(db1, sessionId);
      IngestKeepsSessionScope(db1, msgs[1..], sessionId);
    }
  }

  /** The store enforces the foreign key from each metric table to
      `sessions`: it commits a message's row only when the row's session id
      names an existing session. */
  predicate EnforcesForeignKey(db: Db, msgs: seq<Message>)
  {
    forall i :: 0 <= i < |msgs| && Accepted(msgs[i]) ==> RefersToSession(db, msgs[i].args[0])
  }

  /** Under a store that enforces the foreign keys, ingestion keeps every
      metric row pointing at an existing session. */
  lemma {:induction false} IngestKeepsIntegrity(db: Db, msgs: seq<Message>)
    requires Intact(db)
    requires EnforcesForeignKey(db, msgs)
    ensures Intact(IngestAll(db, msgs))
    decreases |msgs|
  {
    if |msgs| > 0 {
      var db1 := Dispatch(db, msgs[0]).db;
      assert db1.sessions == db.sessions;
      assert forall id :: HasSession(db1, id) == HasSession(db, id);
      assert Intact(db1);
      assert EnforcesForeignKey(db1, msgs[1..]) by {
        forall i | 0 <= i < |msgs[1..]| && Accepted(msgs[1..][i])
          ensures RefersToSession(db1, msgs[1..][i].args[0])
        {
          assert msgs[1..][i] == msgs[i + 1];
        }
      }
      IngestKeepsIntegrity(db1, msgs[1..]);
    }
  }
}

=== FILE: engagement_score.dfy ===
/**
 The engagement score: a weighted sum of a skin-conductance (GSR) term worth
 up to 60 points and a heart-rate-deviation term worth up to 40 points,
 each capped before summing. Arithmetic is over exact reals.
 */
module EngagementScore {

  /** The resting heart rate the deviation is measured from. */
  const RestingBpm: real := 70.0
  /** GSR reading that earns the full GSR term. */
  const GsrFullScale: real := 10.0
  /** Heart-rate deviation that earns the full deviation term. */
  const BpmFullScale: real := 50.0
  const GsrWeight: real := 60.0
  const BpmWeight: real := 40.0

  /** Python's two-argument `min`. */
  function Min(a: real, b: real): real
  {
    if b < a then b else a
  }

  function Abs(x: real): real
  {
    if x < 0.0 then -x else x
  }

  /** The GSR term. Capped at 60 from above only: a negative reading gives a
      negative term. */
  function GsrComponent(gsr: real): (c: real)
    ensures c <= GsrWeight
    ensures 0.0 <= gsr ==> 0.0 <= c
    ensures GsrFullScale <= gsr ==> c == GsrWeight
    ensures gsr < 0.0 ==> c < 0.0
  {
    Min(gsr / GsrFullScale, 1.0) * GsrWeight
  }

  /** The heart-rate-deviation term; always within [0, 40]. */
  function BpmComponent(bpm: real): (c: real)
    ensures 0.0 <= c <= BpmWeight
    ensures c == 0.0 <==> bpm == RestingBpm
    ensures BpmFullScale <= Abs(bpm - RestingBpm) <==> c == BpmWeight
  {
    Min(Abs(bpm - RestingBpm) / BpmFullScale, 1.0) * BpmWeight
  }

  /** The score before Python's `round(…, 2)`. */
  function Score(gsr: real, bpm: real): (s: real)
    ensures s <= GsrWeight + BpmWeight
    ensures 0.0 <= gsr ==> 0.0 <= s <= 100.0
  {
    GsrComponent(gsr) + BpmComponent(bpm)
  }

  /** An independent, piecewise-linear statement of the same business rule:
      6 points per unit of GSR up to 60, and 0.8 points per beat of deviation
      from 70 bpm up to 40. */
  function PiecewiseScore(gsr: real, bpm: real): real
  {
    var deviation := if bpm < 70.0 then 70.0 - bpm else bpm - 70.0;
    (if gsr < 10.0 then 6.0 * gsr else 60.0)
    + (if deviation < 50.0 then deviation * 4.0 / 5.0 else 40.0)
  }

  lemma ScoreIsPiecewiseLinear(gsr: real, bpm: real)
    ensures Score(gsr, bpm) == PiecewiseScore(gsr, bpm)
  {
  }

  /** The three reference points of the business rule. */
  lemma ScoreReferencePoints()
    ensures Score(10.0, 70.0) == 60.0
    ensures Score(0.0, 70.0) == 0.0
    ensures Score(20.0, 200.0) == 100.0
  {
  }

  /** Beats above and below the resting rate count the same. */
  lemma ScoreSymmetricInDeviation(gsr: real, d: real)
    ensures Score(gsr, RestingBpm + d) == Score(gsr, RestingBpm - d)
  {
  }

  /** More skin conductance never lowers the score, and neither does a larger
      deviation from the resting rate. */
  lemma ScoreMonotone(gsr1: real, gsr2: real, d1: real, d2: real)
    requires gsr1 <= gsr2
    requires 0.0 <= d1 <= d2
    ensures Score(gsr1, RestingBpm + d1) <= Score(gsr2, RestingBpm + d2)
  {
  }

  /** Negative GSR is not clamped from below: it always pulls the score
      under the heart-rate term alone, which can take the score below 0, but
      a large enough heart-rate deviation can still outweigh it. */
  lemma NegativeGsrCanGiveNegativeScore(gsr: real, bpm: real)
    ensures gsr < 0.0 ==> Score(gsr, bpm) < BpmComponent(bpm)
    ensures Score(-10.0, 70.0) == -60.0
    ensures Score(-1.0, 120.0) == 34.0
  {
  }
}

=== FILE: handlers.dfy ===
/**
 The three OSC handlers. Each takes the message's untyped argument list,
 drops the message when fewer than five arguments arrived, decodes
 `args[0..4]` positionally (ignoring any further arguments) and appends one
 row to its own table.
 */
module Handlers {
  import opened OscArgs
  import opened Tables
  import opened EngagementScore

  /** Arguments every handler needs before it touches the database. */
  const RequiredArgs: nat := 5

  /** `/audience/metric`: session, zone, occupancy, dwell seconds, interaction. */
  datatype AudienceMetric = AudienceMetric(
    sessionId: OscArg, zoneId: OscArg, occupancy: OscArg, dwell: OscArg, interaction: bool)

  /** `/system/event`: session, event type, module, severity, description. */
  datatype SystemEvent = SystemEvent(
    sessionId: OscArg, eventType: OscArg, moduleId: OscArg, severity: OscArg, description: OscArg)

  /** `/engagement/biometric`: session, zone, GSR, BPM, visitor cohort. */
  datatype EngagementData = EngagementData(
    sessionId: OscArg, zoneId: OscArg, gsr: OscArg, bpm: OscArg, cohort: OscArg)

  /** How one handler call ends. `Dropped`: too few arguments, nothing
      attempted. `Written`: one row committed. `RolledBack`: the insert failed
      and was rolled back. `ConnectRaised`: no connection could be made and
      the error escapes the handler. `TypeRaised`: the score arithmetic hit a
      non-numeric argument and the error escapes before any connection. */
  datatype Outcome = Dropped | Written | RolledBack | ConnectRaised | TypeRaised

  datatype Handled = Handled(db: Db, outcome: Outcome)

  /** The common tail of every handler: connect, execute, commit. A failed
      connection raises out of the handler; a failed statement is rolled back
      and swallowed. On any failure the database is as it was. */
  function Commit(db: Db, updated: Db, store: StoreStatus): (h: Handled)
    ensures h.outcome == Written <==> store == Available
    ensures h.outcome == RolledBack <==> store == Rejects
    ensures h.outcome == ConnectRaised <==> store == Unreachable
    ensures h.outcome == Written ==> h.db == updated
    ensures h.outcome != Written ==> h.db == db
  {
    match store
    case Available => Handled(updated, Written)
    case Rejects => Handled(db, RolledBack)
    case Unreachable => Handled(db, ConnectRaised)
  }

  // ---- positional decoding ----

  function DecodeAudienceMetric(args: seq<OscArg>): (m: Option<AudienceMetric>)
    ensures m.Some? <==> |args| >= RequiredArgs
  {
    if |args| < RequiredArgs then None
    else Some(AudienceMetric(args[0], args[1], args[2], args[3], Truthy(args[4])))
  }

  function DecodeSystemEvent(args: seq<OscArg>): (m: Option<SystemEvent>)
    ensures m.Some? <==> |args| >= RequiredArgs
  {
    if |args| < RequiredArgs then None
    else Some(SystemEvent(args[0], args[1], args[2], args[3], args[4]))
  }

  function DecodeEngagementData(args: seq<OscArg>): (m: Option<EngagementData>)
    ensures m.Some? <==> |args| >= RequiredArgs
  {
    if |args| < RequiredArgs then None
    else Some(EngagementData(args[0], args[1], args[2], args[3], args[4]))
  }

  // ---- the argument lists a sender would put on the wire ----

  function EncodeAudienceMetric(m: AudienceMetric): seq<OscArg>
  {
    [m.sessionId, m.zoneId, m.occupancy, m.dwell, BoolArg(m.interaction)]
  }

  function EncodeSystemEvent(m: SystemEvent): seq<OscArg>
  {
    [m.sessionId, m.eventType, m.moduleId, m.severity, m.description]
  }

  function EncodeEngagementData(m: EngagementData): seq<OscArg>
  {
    [m.sessionId, m.zoneId, m.gsr, m.bpm, m.cohort]
  }

  /** Decoding what a sender encoded gives the record back, whatever extra
      arguments follow it. */
  lemma DecodeEncodeRoundTrip(a: AudienceMetric, e: SystemEvent, g: EngagementData, extra: seq<OscArg>)
    ensures DecodeAudienceMetric(EncodeAudienceMetric(a) + extra) == Some(a)
    ensures DecodeSystemEvent(EncodeSystemEvent(e) + extra) == Some(e)
    ensures DecodeEngagementData(EncodeEngagementData(g) + extra) == Some(g)
  {
  }

  /** A decoded record holds exactly the first five arguments, in order: for
      the system-event and engagement handlers verbatim, for the audience
      handler with the fifth reduced to its truthiness. Everything after the
      fifth argument is ignored. */
  lemma EncodeDecodeRoundTrip(args: seq<OscArg>)
    requires |args| >= RequiredArgs
    ensures EncodeSystemEvent(DecodeSystemEvent(args).value) == args[..5]
    ensures EncodeEngagementData(DecodeEngagementData(args).value) == args[..5]
    ensures EncodeAudienceMetric(DecodeAudienceMetric(args).value) == args[..4] + [BoolArg(Truthy(args[4]))]
    ensures DecodeAudienceMetric(args) == DecodeAudienceMetric(args[..5])
    ensures DecodeSystemEvent(args) == DecodeSystemEvent(args[..5])
    ensures DecodeEngagementData(args) == DecodeEngagementData(args[..5])
  {
  }

  /** The interaction flag is the truthiness of the fifth argument alone: for
      an integer, zero is false and anything else true; a nonzero float, a
      non-empty string and `True` are true as well. The occupancy argument
      plays no part. */
  lemma InteractionIsFifthArgument(sid: OscArg, zone: OscArg, occupancy: OscArg, dwell: OscArg, flag: int,
                                   fifth: OscArg)
    ensures DecodeAudienceMetric([sid, zone, occupancy, dwell, fifth]).value.interaction == Truthy(fifth)
    ensures DecodeAudienceMetric([sid, zone, occupancy, dwell, IntArg(flag)]).value.interaction <==> flag != 0
    ensures DecodeAudienceMetric([sid, zone, occupancy, dwell, FloatArg(0.5)]).value.interaction
    ensures DecodeAudienceMetric([sid, zone, occupancy, dwell, StrArg("x")]).value.interaction
    ensures DecodeAudienceMetric([sid, zone, occupancy, dwell, BoolArg(true)]).value.interaction
    ensures DecodeAudienceMetric([sid, zone, IntArg(0), dwell, IntArg(1)]).value.interaction
    ensures !DecodeAudienceMetric([sid, zone, IntArg(5), dwell, IntArg(0)]).value.interaction
  {
  }

  // ---- handlers ----

  function HandleAudienceMetric(db: Db, args: seq<OscArg>, now: Timestamp, store: StoreStatus): (h: Handled)
    ensures |args| < RequiredArgs ==> h == Handled(db, Dropped)
    ensures h.outcome == Written <==> |args| >= RequiredArgs && store == Available
    ensures h.outcome == RolledBack <==> |args| >= RequiredArgs && store == Rejects
    ensures h.outcome == ConnectRaised <==> |args| >= RequiredArgs && store == Unreachable
    ensures h.outcome != Written ==> h.db == db
    ensures h.outcome == Written ==>
      && AppendedOne(db.audienceMetrics, h.db.audienceMetrics,
                     AudienceRow(args[0], now, args[1], args[2], args[3], Truthy(args[4])))
      && h.db.sessions == db.sessions
      && h.db.systemEvents == db.systemEvents
      && h.db.emotionalEngagement == db.emotionalEngagement
  {
    match DecodeAudienceMetric(args)
    case None => Handled(db, Dropped)
    case Some(m) =>
      var row := AudienceRow(m.sessionId, now, m.zoneId, m.occupancy, m.dwell, m.interaction);
      Commit(db, db.(audienceMetrics := db.audienceMetrics + [row]), store)
  }

  function HandleSystemEvent(db: Db, args: seq<OscArg>, store: StoreStatus): (h: Handled)
    ensures |args| < RequiredArgs ==> h == Handled(db, Dropped)
    ensures h.outcome == Written <==> |args| >= RequiredArgs && store == Available
    ensures h.outcome == RolledBack <==> |args| >= RequiredArgs && store == Rejects
    ensures h.outcome == ConnectRaised <==> |args| >= RequiredArgs && store == Unreachable
    ensures h.outcome != Written ==> h.db == db
    ensures h.outcome == Written ==>
      && AppendedOne(db.systemEvents, h.db.systemEvents, EventRow(args[0], args[1], args[2], args[3], args[4]))
      && h.db.sessions == db.sessions
      && h.db.audienceMetrics == db.audienceMetrics
      && h.db.emotionalEngagement == db.emotionalEngagement
  {
    match DecodeSystemEvent(args)
    case None => Handled(db, Dropped)
    case Some(m) =>
      var row := EventRow(m.sessionId, m.eventType, m.moduleId, m.severity, m.description);
      Commit(db, db.(systemEvents := db.systemEvents + [row]), store)
  }

  /** The GSR and BPM arguments are usable as numbers. */
  predicate NumericReadings(args: seq<OscArg>)
    requires |args| >= RequiredArgs
  {
    AsNumber(args[2]).Some? && AsNumber(args[3]).Some?
  }

  function HandleEngagementData(db: Db, args: seq<OscArg>, now: Timestamp, store: StoreStatus): (h: Handled)
    ensures |args| < RequiredArgs ==> h == Handled(db, Dropped)
    ensures |args| >= RequiredArgs && !NumericReadings(args) ==> h == Handled(db, TypeRaised)
    ensures h.outcome == Written <==> |args| >= RequiredArgs && NumericReadings(args) && store == Available
    ensures h.outcome == RolledBack <==> |args| >= RequiredArgs && NumericReadings(args) && store == Rejects
    ensures h.outcome == ConnectRaised <==> |args| >= RequiredArgs && NumericReadings(args) && store == Unreachable
    ensures h.outcome != Written ==> h.db == db
    ensures h.outcome == Written ==>
      && AppendedOne(db.emotionalEngagement, h.db.emotionalEngagement,
                     EngagementRow(args[0], args[1], now, args[2], args[3],
                                   Score(AsNumber(args[2]).value, AsNumber(args[3]).value), args[4]))
      && (0.0 <= AsNumber(args[2]).value ==>
            0.0 <= h.db.emotionalEngagement[|db.emotionalEngagement|].engagementScore <= 100.0)
    ensures h.outcome == Written ==>
      && h.db.sessions == db.sessions
      && h.db.audienceMetrics == db.audienceMetrics
      && h.db.systemEvents == db.systemEvents
  {
    match DecodeEngagementData(args)
    case None => Handled(db, Dropped)
    case Some(m) =>
      match (AsNumber(m.gsr), AsNumber(m.bpm))
      case (Some(gsr), Some(bpm)) =>
        var row := EngagementRow(m.sessionId, m.zoneId, now, m.gsr, m.bpm, Score(gsr, bpm), m.cohort);
        Commit(db, db.(emotionalEngagement := db.emotionalEngagement + [row]), store)
      case _ => Handled(db, TypeRaised)
  }
}

=== FILE: osc_args.dfy ===
/**
 The untyped positional arguments an OSC message delivers to a handler, and
 the two ways the logger interprets one: Python truthiness (`bool(x)`) and
 use as an operand of float arithmetic (`x / 10.0`, `x - 70`).
 */
module OscArgs {

  datatype Option<+T> = None | Some(value: T)

  /** One OSC argument, of the kinds modelled here: integers, floats (as
      exact reals), strings, blobs (byte strings), booleans and nil. */
  datatype OscArg =
    | IntArg(i: int)
    | FloatArg(f: real)
    | StrArg(s: string)
    | BlobArg(bytes: seq<bv8>)
    | BoolArg(b: bool)
    | NilArg

  /** Python's `bool(x)`: zero numbers, empty strings and blobs, `False` and
      `None` are false; everything else is true. */
  predicate Truthy(a: OscArg)
    ensures AsNumber(a).Some? ==> (Truthy(a) <==> AsNumber(a).value != 0.0)
    ensures a.StrArg? ==> (Truthy(a) <==> a.s != "")
    ensures a.BlobArg? ==> (Truthy(a) <==> a.bytes != [])
    ensures a.NilArg? ==> !Truthy(a)
  {
    match a
    case IntArg(i) => i != 0
    case FloatArg(f) => f != 0.0
    case StrArg(s) => |s| > 0
    case BlobArg(bytes) => |bytes| > 0
    case BoolArg(b) => b
    case NilArg => false
  }

  /** The value of `x` as an operand of Python float arithmetic, or `None`
      when that arithmetic raises `TypeError` (strings, blobs, `None`).
      Python booleans are integers 0 and 1. */
  function AsNumber(a: OscArg): (r: Option<real>)
    ensures r.None? <==> a.StrArg? || a.BlobArg? || a.NilArg?
    ensures a.IntArg? ==> r == Some(a.i as real)
    ensures a.FloatArg? ==> r == Some(a.f)
    ensures a.BoolArg? ==> r.value == 0.0 || r.value == 1.0
  {
    match a
    case IntArg(i) => Some(i as real)
    case FloatArg(f) => Some(f)
    case BoolArg(b) => Some(if b then 1.0 else 0.0)
    case StrArg(_) => None
    case BlobArg(_) => None
    case NilArg => None
  }
}

=== FILE: sessions.dfy ===
/**
 Session management: `create_session` inserts one `sessions` row under a
 freshly generated id; `close_session` sets `duration_min` and `notes` on the
 row(s) whose `session_id` matches.
 */
module Sessions {
  import opened OscArgs
  import opened Tables

  const DefaultSceneVersion: string := "v0.1"
  const DefaultNotes: string := ""

  /** Why a session operation raised: the connection failed, or the statement
      failed and was rolled back. */
  datatype StoreError = ConnectionFailed | WriteFailed

  /** `create_session` either returns the new id with the row committed, or
      raises with the table untouched. */
  datatype CreateResult = Created(db: Db, sessionId: string) | CreateRaised(error: StoreError)

  /** How `close_session` ends: normally after a commit, normally after a
      logged rollback, or by raising because no connection could be made. */
  datatype CloseOutcome = Closed | CloseRolledBack | CloseRaised
  datatype Closing = Closing(db: Db, outcome: CloseOutcome)

  /** The session row as inserted: duration and notes are still NULL. */
  function OpenRow(sessionId: string, projectId: string, venueName: string, sceneVersion: string): SessionRow
  {
    SessionRow(sessionId, projectId, venueName, sceneVersion, None, None)
  }

  /** `freshId` stands for `str(uuid.uuid4())`. */
  function CreateSession(db: Db, freshId: string, store: StoreStatus,
                         projectId: string, venueName: string,
                         sceneVersion: string := DefaultSceneVersion): (r: CreateResult)
    ensures r.Created? <==> store == Available
    ensures r.Created? ==>
      && r.sessionId == freshId
      && AppendedOne(db.sessions, r.db.sessions, OpenRow(freshId, projectId, venueName, sceneVersion))
      && r.db.audienceMetrics == db.audienceMetrics
      && r.db.systemEvents == db.systemEvents
      && r.db.emotionalEngagement == db.emotionalEngagement
    ensures store == Unreachable ==> r == CreateRaised(ConnectionFailed)
    ensures store == Rejects ==> r == CreateRaised(WriteFailed)
  {
    match store
    case Unreachable => CreateRaised(ConnectionFailed)
    case Rejects => CreateRaised(WriteFailed)
    case Available =>
      Created(db.(sessions := db.sessions + [OpenRow(freshId, projectId, venueName, sceneVersion)]), freshId)
  }

  /** The `UPDATE … WHERE session_id = id` over the rows of `sessions`. */
  function CloseRows(rows: seq<SessionRow>, sessionId: string, durationMin: int, notes: string)
    : (rows': seq<SessionRow>)
    ensures |rows'| == |rows|
    ensures forall i :: 0 <= i < |rows| && rows[i].sessionId == sessionId ==>
      rows'[i] == rows[i].(durationMin := Some(durationMin), notes := Some(notes))
    ensures forall i :: 0 <= i < |rows| && rows[i].sessionId != sessionId ==> rows'[i] == rows[i]
  {
    if |rows| == 0 then []
    else
      var head := if rows[0].sessionId == sessionId
                  then rows[0].(durationMin := Some(durationMin), notes := Some(notes))
                  else rows[0];
      [head] + CloseRows(rows[1..], sessionId, durationMin, notes)
  }

  function CloseSession(db: Db, store: StoreStatus, sessionId: string, durationMin: int,
                        notes: string := DefaultNotes): (c: Closing)
    ensures c.db.audienceMetrics == db.audienceMetrics
    ensures c.db.systemEvents == db.systemEvents
    ensures c.db.emotionalEngagement == db.emotionalEngagement
    ensures |c.db.sessions| == |db.sessions|
    ensures forall i :: 0 <= i < |db.sessions| ==>
      c.db.sessions[i] ==
        if store == Available && db.sessions[i].sessionId == sessionId
        then db.sessions[i].(durationMin := Some(durationMin), notes := Some(notes))
        else db.sessions[i]
    ensures !HasSession(db, sessionId) ==> c.db == db
    ensures c.outcome == Closed <==> store == Available
    ensures c.outcome == CloseRaised <==> store == Unreachable
  {
    match store
    case Unreachable => Closing(db, CloseRaised)
    case Rejects => Closing(db, CloseRolledBack)
    case Available =>
      Closing(db.(sessions := CloseRows(db.sessions, sessionId, durationMin, notes)), Closed)
  }

  /** Exactly one row of `rows`, the one at `k`, carries `sessionId`. */
  predicate UniqueAt(rows: seq<SessionRow>, sessionId: string, k: int)
  {
    && 0 <= k < |rows|
    && rows[k].sessionId == sessionId
    && forall j :: 0 <= j < |rows| && j != k ==> rows[j].sessionId != sessionId
  }

  /** A session created under a fresh id and then closed leaves exactly one
      row with that id, with the creation fields intact and the duration and
      notes of the close; no other row and no metric table changes. */
  lemma CreateThenClose(db: Db, freshId: string, projectId: string, venueName: string, sceneVersion: string,
                        durationMin: int, notes: string)
    requires !HasSession(db, freshId)
    ensures
      var created := CreateSession(db, freshId, Available, projectId, venueName, sceneVersion);
      var closed := CloseSession(created.db, Available, created.sessionId, durationMin, notes);
      && UniqueAt(closed.db.sessions, freshId, |db.sessions|)
      && closed.db.sessions[|db.sessions|]
         == SessionRow(freshId, projectId, venueName, sceneVersion, Some(durationMin), Some(notes))
      && closed.db.sessions[..|db.sessions|] == db.sessions
      && closed.db.audienceMetrics == db.audienceMetrics
      && closed.db.systemEvents == db.systemEvents
      && closed.db.emotionalEngagement == db.emotionalEngagement
  {
  }

  /** Nothing stops a session from being closed twice: the second close
      overwrites what the first wrote. */
  lemma CloseTwiceLastWins(db: Db, sessionId: string, d1: int, n1: string, d2: int, n2: string)
    ensures
      var once := CloseSession(db, Available, sessionId, d2, n2);
      var twice := CloseSession(CloseSession(db, Available, sessionId, d1, n1).db, Available, sessionId, d2, n2);
      twice.db == once.db
  {
  }

  /** Session creation and closing keep every metric row pointing at an
      existing session: creation only adds ids, closing changes none. */
  lemma SessionOpsKeepIntegrity(db: Db, freshId: string, store: StoreStatus, projectId: string, venueName: string,
                                sceneVersion: string, sessionId: string, durationMin: int, notes: string)
    requires Intact(db)
    ensures CreateSession(db, freshId, store, projectId, venueName, sceneVersion).Created? ==>
              Intact(CreateSession(db, freshId, store, projectId, venueName, sceneVersion).db)
    ensures Intact(CloseSession(db, store, sessionId, durationMin, notes).db)
  {
  }
}

=== FILE: tables.dfy ===
/**
 The database the logger writes to, as an abstract state: one sequence of
 rows per table, in insertion order. A write either commits or leaves the
 state exactly as it was; which one happens is the store's verdict, passed
 in by the caller.
 */
module Tables {
  import opened OscArgs

  /** A reading of the server clock (`datetime.now()`), supplied by the caller. */
  type Timestamp = int

  /** A row of `sessions`. `durationMin` and `notes` are NULL until the
      session is closed. */
  datatype SessionRow = SessionRow(
    sessionId: string,
    projectId: string,
    venueName: string,
    sceneVersion: string,
    durationMin: Option<int>,
    notes: Option<string>)

  /** A row of `audience_metrics`. */
  datatype AudienceRow = AudienceRow(
    sessionId: OscArg,
    timestamp: Timestamp,
    zoneId: OscArg,
    occupancyCount: OscArg,
    dwellTimeSec: OscArg,
    interaction: bool)

  /** A row of `system_events`. */
  datatype EventRow = EventRow(
    sessionId: OscArg,
    eventType: OscArg,
    moduleId: OscArg,
    severity: OscArg,
    description: OscArg)

  /** A row of `emotional_engagement`. */
  datatype EngagementRow = EngagementRow(
    sessionId: OscArg,
    zoneId: OscArg,
    timestamp: Timestamp,
    gsrValue: OscArg,
    bpmValue: OscArg,
    engagementScore: real,
    visitorCohort: OscArg)

  datatype Db = Db(
    sessions: seq<SessionRow>,
    audienceMetrics: seq<AudienceRow>,
    systemEvents: seq<EventRow>,
    emotionalEngagement: seq<EngagementRow>)

  /** What the store does with one connect-and-execute: commit it, refuse the
      connection (`get_db_connection` raises), or fail the statement (the
      handler rolls back). */
  datatype StoreStatus = Available | Unreachable | Rejects

  /** Rows across the three metric tables. */
  function MetricRowCount(db: Db): nat
  {
    |db.audienceMetrics| + |db.systemEvents| + |db.emotionalEngagement|
  }

  predicate HasSession(db: Db, id: string)
  {
    exists i :: 0 <= i < |db.sessions| && db.sessions[i].sessionId == id
  }

  /** A metric row's `session_id` column holds the id of an existing session. */
  predicate RefersToSession(db: Db, sessionId: OscArg)
  {
    sessionId.StrArg? && HasSession(db, sessionId.s)
  }

  /** Referential integrity: every metric row references an existing session. */
  predicate Intact(db: Db)
  {
    && (forall i :: 0 <= i < |db.audienceMetrics| ==> RefersToSession(db, db.audienceMetrics[i].sessionId))
    && (forall i :: 0 <= i < |db.systemEvents| ==> RefersToSession(db, db.systemEvents[i].sessionId))
    && (forall i :: 0 <= i < |db.emotionalEngagement| ==> RefersToSession(db, db.emotionalEngagement[i].sessionId))
  }

  /** Every metric row carries the given session id. */
  predicate ScopedTo(db: Db, sessionId: string)
  {
    && (forall i :: 0 <= i < |db.audienceMetrics| ==> db.audienceMetrics[i].sessionId == StrArg(sessionId))
    && (forall i :: 0 <= i < |db.systemEvents| ==> db.systemEvents[i].sessionId == StrArg(sessionId))
    && (forall i :: 0 <= i < |db.emotionalEngagement| ==> db.emotionalEngagement[i].sessionId == StrArg(sessionId))
  }

  /** `t'` is `t` with exactly one row appended, and that row is `row`. */
  predicate AppendedOne<T(==)>(t: seq<T>, t': seq<T>, row: T)
  {
    |t'| == |t| + 1 && t'[..|t|] == t && t'[|t|] == row
  }
}
